=== FILE: README.md ===
# Nutrition Hunter in Dafny

A model of the browser game "Nutrition Hunter" and its leaderboard endpoint.

In the game, a hunter runs along a track. It jumps over a beast that comes in
from the left, and it eats food items that change its speed, weight and
muscle and raise the score. The page drives the game with a 60-per-second
tick and a key-down listener. Almost every state change in them is a React
updater, a function of the previous value of one piece of state. Two are not:
the beast's updater also queues the score bonus from inside itself, and game
over is set with a plain value. The model lifts all of them into pure
functions over immutable records:

- `GameTypes` (`types.dfy`) holds the records, the tuning constants and the four-row food table.
- `Physics` (`physics.dfy`) holds the collision box, the stat changes, gravity, the jump and the arrow keys.
- `Obstacle` (`obstacle.dfy`) holds the beast step, the pass-over bonus and the game-over test.
- `FoodPass` (`food.dfy`) holds the per-tick food collision pass and the spawner.
- `Game` (`game.dfy`) composes one tick, in the page's order: beast step, food pass, spawn, jump update.
  It also handles one key press, and runs any sequence of ticks and key presses.
- `JsText` (`jstext.dfy`) models JavaScript's `trim`.
- `Leaderboard` (`leaderboard.dfy`) models POST validation and storage, and the GET top-ten selection,
  over a sequence of records.

Within one tick, every test reads the previous frame's values. These are the
values the callbacks close over. The updates the tick queues are applied in
queue order, each one to the result of the ones before:

- The hunter first eats every touched item in list order. Then it falls if it was airborne.
- The score rises by the points of every touched item, plus 50 for passing over the beast.
- The food list is filtered once per touched item, then the spawner may append one item.
- The game ends when the previous frame's beast had come within 50 of the hunter, or past it,
  while the hunter was at height at most 70: on the ground or in the lower part of a jump.

Once the game is over, ticks stop. Key presses still move the hunter, because
the key listener does not look at the game-over flag.

### Behaviour of the code worth knowing

- There are no lives, countdown, phases or restart. Game over is a single flag, and "Play Again" reloads the page.
- The food table is (points, effect, value):
  - protein (20, muscle, 5)
  - carb (15, speed, 2)
  - fat (10, weight, 5)
  - sugar (5, weight, 10)

  Every row is worth positive points.
- The move guard reads the position before the step, and the result is never clamped.
  A step can end up to one step past either edge of [0, 750] (`Physics.PressOvershootsEdge`).
- Food items never move in the state: food `y` stays -20. The page draws food at `top: y`, with a CSS
  animation that makes it look as if it falls, and draws the hunter at `bottom: y`. The collision test compares the two
  `y` values as one axis, a top offset against a height, so the hunter can touch an item only while below
  height 30, and a grounded hunter touches items drawn at the top of the canvas
  (`Physics.SpawnedFoodOnlyNearGround`).
- Simultaneous collisions are not independent. Each touched item queues a filter on its original position,
  and later filters run on the already shortened list. From the second collision of a tick on, the wrong
  item can be dropped, or none. A touched item can then stay in the list and be eaten again on the next tick
  (`FoodPass.StaleIndexDropsWrongItem`, `Game.StaleItemScoresTwice`). With at most one collision, the pass
  equals the removal of exactly the touched items (`FoodPass.SingleCollisionIsExact`, `FoodPass.NoCollisionKeepsAll`).
- POST opens the database connection before it reads the body. A failed connection therefore answers 500,
  even for a body that would have been rejected with 400. A `null` body makes the destructuring throw,
  which also answers 500.

## Model

| member | source | states |
|---|---|---|
| `GameTypes.FoodRow` | app/page.tsx:137-142 | every row of the food table is worth positive points and a positive stat value; only carb raises speed and only protein raises muscle |
| `Physics.Collides` | app/page.tsx:32-34 | an item is touched exactly when it lies inside the open 100-by-100 box centred on the hunter, tested per axis, not by distance |
| `Physics.NearSymmetric` | app/page.tsx:32-34 | the collision test gives the same answer with the two positions swapped |
| `Physics.SpawnedFoodOnlyNearGround` | app/page.tsx:32-34 | since spawned items keep food `y` -20, a hunter at or above the ground touches one only below height 30 |
| `Physics.Eat` | app/page.tsx:36-47 | a speed item adds its value to speed; a muscle item adds it to muscle; a weight item adds it to weight and sets speed to max(2, speed - 2); position and jump state never change; speed at least 2 stays at least 2 for a non-negative value |
| `Physics.EatAll` | app/page.tsx:84-89 | eating the touched items in turn adds the summed weight values to weight and the summed muscle values to muscle, keeps position and jump state, and keeps speed at least 2 when no value is negative |
| `Physics.PointsTotalNonNegative` | app/page.tsx:48 | items with non-negative points never lower the score |
| `Physics.Fall` | app/page.tsx:53-63 | gravity lowers the velocity by 0.8; the new height is at least 20 and is the old height plus the new velocity unless clamped; the hunter is jumping afterwards exactly when above 20 or still rising |
| `Physics.UpdateJump` | app/page.tsx:51-66 | an airborne hunter (jumping or above 20) loses 0.8 of velocity and moves to max(20, y + new velocity), and is jumping afterwards exactly when above 20 or still rising; any other hunter is left exactly as it was; a hunter at or above the ground never ends below it; speed, weight, muscle and position are untouched |
| `Physics.RestingIsFixedPoint` | app/page.tsx:51-66 | a hunter resting on the ground with zero velocity is a fixed point of the jump update |
| `Physics.Jump` | app/page.tsx:120-128 | the jump key takes effect only when not jumping; it sets the jumping flag and the take-off velocity 15 + muscle/10 - weight/20 and changes nothing else |
| `Physics.JumpVelocityMonotone` | app/page.tsx:126 | more weight or less muscle never gives a faster take-off |
| `Physics.JumpExample` | app/page.tsx:126 | muscle 20 and weight 40 give take-off velocity 15 |
| `Physics.JumpReachesClearHeight` | app/page.tsx:51-66 | a jump from the start position is above the clear height 70 after four ticks of gravity |
| `Physics.Press` | app/page.tsx:113-130 | the left arrow moves by exactly one step of the current speed when the position before the move is above 0, and the right arrow when it is below 750, and neither moves otherwise; a hunter at or past an edge is not moved further out; up and space are the jump; other keys do nothing; height and stats never change |
| `Physics.PressKeepsBand` | app/page.tsx:114-119 | key presses never take the hunter more than one step of speed outside [0, 750] |
| `Physics.PressOvershootsEdge` | app/page.tsx:117-119 | from 748 at speed 5 the right arrow ends at 753, past the edge 750 |
| `Obstacle.Advance` | app/page.tsx:70-81 | passing over the beast (hunter above 70 and within 50 of the beast's next position) resets it to -100 and pays 50; otherwise it advances by its speed and pays nothing; its speed never changes |
| `Obstacle.PassingExcludesCaught` | app/page.tsx:70-94 | a tick that pays the pass-over bonus can never end the game |
| `Obstacle.Caught` | app/page.tsx:90-93 | a caught hunter is at height at most 70 and is not passing over the beast; a beast level with or past a hunter at height at most 70 always catches it |
| `Obstacle.CaughtUpToClearHeight` | app/page.tsx:90-93 | below the clear height the hunter's height does not matter to the test, so a hunter mid-jump is caught like a grounded one; a beast further right catches whenever one further left does |
| `Obstacle.CaughtMidJump` | app/page.tsx:90-93 | a hunter mid-jump at height 60 is caught by a beast 40 behind it |
| `Obstacle.AdvanceMovesRight` | app/page.tsx:70-81 | a beast with positive speed moves right unless it is reset |
| `FoodPass.RemoveAt` | app/page.tsx:87 | filtering out one position drops exactly that element and shifts the later ones down, or leaves the list alone when the position is past the end |
| `FoodPass.RemoveEach` | app/page.tsx:84-89 | running the queued filters in turn leaves a sub-bag of the list, shorter by at most the number of filters |
| `FoodPass.CollidingFrom` | app/page.tsx:84-85 | the queued positions are increasing and are exactly the positions of the touched items |
| `FoodPass.Eaten` | app/page.tsx:84-86 | the items eaten in a tick are touched items taken from the list |
| `FoodPass.Keep` | app/page.tsx:84-89 | the reference removal keeps only untouched items, taken from the list |
| `FoodPass.EatenIsAtColliding` | app/page.tsx:84-88 | the items eaten are exactly the items at the positions the pass queues filters for, in list order, since eating and queueing happen in the same walk |
| `FoodPass.Pass` | app/page.tsx:84-89 | the list the queued filters leave is a sub-bag of the old list, and at most one item shorter per collision |
| `FoodPass.EatenAndKeptPartition` | app/page.tsx:84-89 | the eaten items and the reference remainder together are exactly the list |
| `FoodPass.NoCollisionKeepsAll` | app/page.tsx:84-89 | with nothing touched, the pass as written and the reference removal both leave the list unchanged |
| `FoodPass.SingleCollisionIsExact` | app/page.tsx:84-89 | with exactly one item touched, the pass as written equals the reference removal and is one item shorter |
| `FoodPass.StaleIndexDropsWrongItem` | app/page.tsx:84-89 | with the first two of three items touched, the pass as written keeps a touched item and drops the untouched one, where the reference removal keeps only the untouched one |
| `FoodPass.KindIndex` | app/page.tsx:144 | the picked row index is below four and is picked by exactly a quarter-width range of draws |
| `FoodPass.Spawn` | app/page.tsx:135-149 | a draw below 0.02 appends exactly one item of the picked kind, built from its table row, with food `y` -20 and a position in [0, 750); any other draw leaves the list unchanged |
| `FoodPass.PassAndSpawnKeepTableItems` | app/page.tsx:135-149 | the collision pass and the spawner leave only table-made items in the list |
| `Game.Tick` | app/page.tsx:68-105 | a tick after game over changes nothing; otherwise the game ends exactly when the previous frame's beast was at or past hunter.x - 50 with the hunter at height at most 70; the score rises by the eaten points plus the pass-over bonus; the hunter is the jump update of the fed hunter; the beast is reset to -100 when passed over and otherwise advances by its unchanged speed; the food list is the spawner applied to the as-written collision pass, so it loses at most one item per collision and gains at most one |
| `Game.KeyDown` | app/page.tsx:111-133 | a key press changes only the hunter, even after game over |
| `Game.EatenAreNonNegative` | app/page.tsx:137-142 | the items eaten from a list of table-made items carry non-negative points and values |
| `Game.TickPreservesInvariant` | app/page.tsx:97-108 | a tick keeps the hunter on or above the ground, keeps its speed at least 2 and keeps only table-made items, and never lowers the score |
| `Game.RunPreservesInvariant` | app/page.tsx:97-133 | any sequence of ticks and key presses keeps that invariant and never lowers the score |
| `Game.ReachableStatesAreSound` | app/page.tsx:12-22 | from the initial state, every reachable state has height at least 20, speed at least 2 and a non-negative score |
| `Game.GameOverIsFinal` | app/page.tsx:100-105 | after game over, every event sequence keeps the flag and freezes the beast, the food list and the score; a sequence of ticks alone changes nothing |
| `Game.StaleItemScoresTwice` | app/page.tsx:84-89 | a touched item the stale filters leave behind is eaten again by the next tick, so its points count twice |
| `JsText.TrimStart` | app/api/leaderboard/route.ts:44 | the result is a suffix of the input, only white space was cut, and it does not start with white space |
| `JsText.TrimEnd` | app/api/leaderboard/route.ts:44 | the result is a prefix of the input, only white space was cut, and it does not end with white space |
| `JsText.Trim` | app/api/leaderboard/route.ts:35-44 | the result is no longer than the input, has no white space at either end, and is empty exactly when the input was all white space |
| `JsText.TrimOfPadded` | app/api/leaderboard/route.ts:44 | padding a trimmed string with white space on both sides and trimming gives it back |
| `JsText.TrimIdempotent` | app/api/leaderboard/route.ts:44 | trimming twice is trimming once |
| `JsText.TrimExample` | app/api/leaderboard/route.ts:44 | "  Ann  " trims to "Ann" |
| `Leaderboard.Property` | app/api/leaderboard/route.ts:33 | destructuring throws exactly for a null body and yields a value exactly for an object holding that key |
| `Leaderboard.Post` | app/api/leaderboard/route.ts:28-53 | 400 exactly when connected, the body is parsed and not null, and the score is not a number, the name is not a string, or the name is all white space; 201 exactly when connected, the body is acceptable and the insert succeeds; 201 appends exactly one record with the given score, the trimmed non-empty name and the current time, and says "Score saved"; any other answer stores nothing; every failure other than 400 is a 500 |
| `Leaderboard.BestIndex` | app/api/leaderboard/route.ts:17 | the chosen record scores at least as much as every record of the collection |
| `Leaderboard.TopScores` | app/api/leaderboard/route.ts:15-19 | the result has min(k, size) records drawn from the collection, in non-increasing score order, and no omitted record scores above the last one listed |
| `Leaderboard.Get` | app/api/leaderboard/route.ts:10-26 | on success, 200 with at most ten records that form a valid top-ten selection; on storage failure, 500 with an error body |
| `Leaderboard.RankedRecordIsListed` | app/api/leaderboard/route.ts:15-19 | a record added to a collection where fewer than ten records score at least as much is listed by every valid top-ten answer |
| `Leaderboard.PostThenGet` | app/api/leaderboard/route.ts:42-48 | after a successful POST, the next GET lists the stored record whenever fewer than ten earlier records score at least as much |
| `Leaderboard.AnnExample` | app/api/leaderboard/route.ts:35-46 | posting score 120 as "  Ann  " to an empty collection stores name "Ann", and the next GET lists it |

## Left out

- Rendering: the JSX of the page, the hunter, beast, food and scoreboard components, and the layout. They draw the state and do not change it.
- Scheduling: `setInterval`, `addEventListener`, React batching and the mount flag. One tick and one key press are each one call.
  `Game.Run` covers any order of ticks and key presses in which each event sees the state the previous one left.
- Stale closures: the tick and the key handler read the values of the render they were created in.
  An event handled after another event has queued its updates, but before React re-renders, reads stale values in its guards.
  For example, Space pressed just after the tick in which the hunter lands is ignored by the page, because the handler
  still sees the hunter jumping. The model lets that Space jump.
- Randomness: the three `Math.random()` draws of the spawner are parameters in [0, 1).
- Numbers: JavaScript numbers are `real`. IEEE-754 rounding, NaN and the infinities are not modelled.
  An infinite score (an overflowing literal such as 1e400) passes `typeof score === 'number'` in the endpoint
  but has no `real` counterpart; a parsed JSON body never holds NaN.
- The database: the connection module with its cached client, and the collection itself.
  The connection, body-parsing and insert outcomes are parameters. A failed insert is taken to store nothing.
- Timestamps: the `new Date()` stamp of POST is a parameter.
- Ties in GET: the database's order among records of equal score is unspecified.
  GET is specified by `Leaderboard.IsTop` and realised by one selection, `Leaderboard.TopScores`.
- The client leaderboard component: a fetch and form state in the browser.
- Logging: the `console.error` calls in the catch blocks of GET and POST write to the server log and do not change the response.

=== FILE: food.dfy ===
/**
  The food list: which items the hunter touches in a tick, how the list is
  filtered afterwards, and how a new item is spawned.

  The collision pass walks the list of the previous frame and, for every
  item the hunter touches, queues a filter that drops the item's ORIGINAL
  position. The queued filters then run one after another on the shrinking
  list, so from the second collision of a tick on they drop whatever item
  has moved into that position, or nothing when the position is past the end.
  `Pass` models that as written; `Keep` is the removal that drops exactly
  the touched items, and the two are related below.
 */
module FoodPass {
  import opened GameTypes
  import opened Physics

  /** The list without its item at position `i` (`filter((_, j) => j !== i)`); unchanged if there is none. */
  function RemoveAt<T>(s: seq<T>, i: nat): (r: seq<T>)
    ensures i < |s| ==> |r| == |s| - 1 && multiset(r) + multiset{s[i]} == multiset(s)
    ensures i < |s| ==> forall j :: 0 <= j < |r| ==> r[j] == if j < i then s[j] else s[j + 1]
    ensures i >= |s| ==> r == s
  {
    if i < |s| then
      assert s == s[..i] + [s[i]] + s[i + 1..];
      s[..i] + s[i + 1..]
    else s
  }

  /** The queued filters run in order, each on the result of the previous one. */
  function RemoveEach<T>(s: seq<T>, idx: seq<nat>): (r: seq<T>)
    ensures multiset(r) <= multiset(s)
    ensures |s| - |idx| <= |r| <= |s|
    decreases |idx|
  {
    if |idx| == 0 then s else RemoveEach(RemoveAt(s, idx[0]), idx[1..])
  }

  predicate Ascending(s: seq<nat>) {
    forall a, b :: 0 <= a < b < |s| ==> s[a] < s[b]
  }

  /** The positions, from `k` on and in increasing order, of the items the hunter touches. */
  function CollidingFrom(h: Hunter, fs: seq<FoodItem>, k: nat): (r: seq<nat>)
    requires k <= |fs|
    ensures Ascending(r)
    ensures forall n :: 0 <= n < |r| ==> k <= r[n] < |fs| && Collides(h, fs[r[n]])
    ensures forall j :: k <= j < |fs| && Collides(h, fs[j]) ==> j in r
    decreases |fs| - k
  {
    if k == |fs| then []
    else if Collides(h, fs[k]) then [k] + CollidingFrom(h, fs, k + 1)
    else CollidingFrom(h, fs, k + 1)
  }

  function Colliding(h: Hunter, fs: seq<FoodItem>): seq<nat> {
    CollidingFrom(h, fs, 0)
  }

  /** The food list after the collision pass, as the filters actually leave it. */
  function Pass(h: Hunter, fs: seq<FoodItem>): (r: seq<FoodItem>)
    ensures multiset(r) <= multiset(fs)
    ensures |fs| - |Colliding(h, fs)| <= |r| <= |fs|
  {
    RemoveEach(fs, Colliding(h, fs))
  }

  /** The items the hunter touches, in list order: each is eaten once in the tick. */
  function Eaten(h: Hunter, fs: seq<FoodItem>): (r: seq<FoodItem>)
    ensures forall i :: 0 <= i < |r| ==> Collides(h, r[i])
    ensures forall f :: f in r ==> f in fs
  {
    if |fs| == 0 then []
    else (if Collides(h, fs[0]) then [fs[0]] else []) + Eaten(h, fs[1..])
  }

  /** Reference removal: exactly the items the hunter does not touch, in list order. */
  function Keep(h: Hunter, fs: seq<FoodItem>): (r: seq<FoodItem>)
    ensures forall i :: 0 <= i < |r| ==> !Collides(h, r[i])
    ensures forall f :: f in r ==> f in fs
  {
    if |fs| == 0 then []
    else (if Collides(h, fs[0]) then [] else [fs[0]]) + Keep(h, fs[1..])
  }

  /** The items at the given positions, in the order the positions are listed. */
  function At<T>(s: seq<T>, idx: seq<nat>): (r: seq<T>)
    requires forall n :: 0 <= n < |idx| ==> idx[n] < |s|
    ensures |r| == |idx|
    ensures forall n :: 0 <= n < |idx| ==> r[n] == s[idx[n]]
    decreases |idx|
  {
    if |idx| == 0 then [] else [s[idx[0]]] + At(s, idx[1..])
  }

  /**
    The items eaten from position `k` on are the items at the positions the
    pass queues filters for, in the same order: eating and queueing happen
    in one walk over the list.
   */
  lemma {:induction false} EatenFromIsAtColliding(h: Hunter, fs: seq<FoodItem>, k: nat)
    requires k <= |fs|
    ensures Eaten(h, fs[k..]) == At(fs, CollidingFrom(h, fs, k))
    decreases |fs| - k
  {
    if k < |fs| {
      EatenFromIsAtColliding(h, fs, k + 1);
      var rest := CollidingFrom(h, fs, k + 1);
      HeadOfSuffix(fs, k);
      if Collides(h, fs[k]) {
        AtCons(fs, k, rest);
      }
    }
  }

  lemma HeadOfSuffix<T>(s: seq<T>, k: nat)
    requires k < |s|
    ensures s[k..] == [s[k]] + s[k + 1..]
  {
  }

  /** Listing one more position in front lists its item in front. */
  lemma AtCons<T>(s: seq<T>, k: nat, rest: seq<nat>)
    requires k < |s| && forall n :: 0 <= n < |rest| ==> rest[n] < |s|
    ensures At(s, [k] + rest) == [s[k]] + At(s, rest)
  {
    var idx := [k] + rest;
    assert idx[0] == k && idx[1..] == rest;
  }

  /** Every eaten item sits at a queued position, in list order, and every queued position is eaten. */
  lemma EatenIsAtColliding(h: Hunter, fs: seq<FoodItem>)
    ensures Eaten(h, fs) == At(fs, Colliding(h, fs))
  {
    EatenFromIsAtColliding(h, fs, 0);
    assert fs[0..] == fs;
  }

  /** Eaten and kept items split the list: every item lands in exactly one of the two. */
  lemma {:induction false} EatenAndKeptPartition(h: Hunter, fs: seq<FoodItem>)
    ensures multiset(Eaten(h, fs)) + multiset(Keep(h, fs)) == multiset(fs)
    ensures |Eaten(h, fs)| + |Keep(h, fs)| == |fs|
    decreases |fs|
  {
    if |fs| > 0 {
      EatenAndKeptPartition(h, fs[1..]);
      SplitStep(fs, Collides(h, fs[0]), Eaten(h, fs[1..]), Keep(h, fs[1..]));
    }
  }

  /** Sending the head of a list to one of two sides extends a split of its tail to the whole list. */
  lemma SplitStep<T>(s: seq<T>, c: bool, e: seq<T>, k: seq<T>)
    requires |s| > 0 && multiset(e) + multiset(k) == multiset(s[1..]) && |e| + |k| == |s| - 1
    ensures multiset((if c then [s[0]] else []) + e) + multiset((if c then [] else [s[0]]) + k) == multiset(s)
    ensures |(if c then [s[0]] else []) + e| + |(if c then [] else [s[0]]) + k| == |s|
  {
    assert s == [s[0]] + s[1..];
  }

  lemma {:induction false} KeepUntouched(h: Hunter, fs: seq<FoodItem>)
    requires forall i :: 0 <= i < |fs| ==> !Collides(h, fs[i])
    ensures Keep(h, fs) == fs
    decreases |fs|
  {
    if |fs| > 0 {
      KeepUntouched(h, fs[1..]);
    }
  }

  lemma {:induction false} NoneColliding(h: Hunter, fs: seq<FoodItem>, k: nat)
    requires k <= |fs|
    requires forall i :: k <= i < |fs| ==> !Collides(h, fs[i])
    ensures CollidingFrom(h, fs, k) == []
    decreases |fs| - k
  {
    if k < |fs| {
      NoneColliding(h, fs, k + 1);
    }
  }

  /** With nothing touched, both the pass as written and the reference leave the list alone. */
  lemma NoCollisionKeepsAll(h: Hunter, fs: seq<FoodItem>)
    requires forall i :: 0 <= i < |fs| ==> !Collides(h, fs[i])
    ensures Pass(h, fs) == fs
    ensures Keep(h, fs) == fs
  {
    NoneColliding(h, fs, 0);
    KeepUntouched(h, fs);
  }

  /** The reference removal of a list in which only position `i` is touched. */
  lemma {:induction false} KeepSingle(h: Hunter, fs: seq<FoodItem>, i: nat)
    requires i < |fs| && Collides(h, fs[i])
    requires forall j :: 0 <= j < |fs| && j != i ==> !Collides(h, fs[j])
    ensures Keep(h, fs) == fs[..i] + fs[i + 1..]
    decreases i
  {
    var tail := fs[1..];
    if i == 0 {
      KeepUntouched(h, tail);
    } else {
      KeepSingle(h, tail, i - 1);
      assert Keep(h, fs) == [fs[0]] + Keep(h, tail);
      assert fs[..i] == [fs[0]] + tail[..i - 1];
      assert fs[i + 1..] == tail[i..];
    }
  }

  /** With exactly one item touched, the pass as written removes exactly that item. */
  lemma SingleCollisionIsExact(h: Hunter, fs: seq<FoodItem>)
    requires |Colliding(h, fs)| == 1
    ensures Pass(h, fs) == Keep(h, fs)
    ensures |Pass(h, fs)| == |fs| - 1
  {
    var i := OnlyColliding(h, fs);
    SingleFilter(fs, i);
    KeepSingle(h, fs, i);
  }

  /** When one position is touched, it is the position the pass filters and no other item is touched. */
  lemma OnlyColliding(h: Hunter, fs: seq<FoodItem>) returns (i: nat)
    requires |Colliding(h, fs)| == 1
    ensures Colliding(h, fs) == [i] && i < |fs| && Collides(h, fs[i])
    ensures forall j :: 0 <= j < |fs| && j != i ==> !Collides(h, fs[j])
  {
    var idx := Colliding(h, fs);
    i := idx[0];
    assert idx == [i];
  }

  /** A single queued filter drops exactly its position. */
  lemma SingleFilter<T>(s: seq<T>, i: nat)
    requires i < |s|
    ensures RemoveEach(s, [i]) == s[..i] + s[i + 1..]
  {
    var idx: seq<nat> := [i];
    assert idx[1..] == [];
  }

  /** Three spawned items, the first two within reach of the hunter at its start position. */
  const StaleFirst: FoodItem := FoodItem(50.0, SpawnY, Protein, 20.0, Muscle, 5.0)
  const StaleSecond: FoodItem := FoodItem(60.0, SpawnY, Carb, 15.0, Speed, 2.0)
  const StaleThird: FoodItem := FoodItem(500.0, SpawnY, Fat, 10.0, Weight, 5.0)

  lemma StaleColliding()
    ensures Colliding(InitialHunter, [StaleFirst, StaleSecond, StaleThird]) == [0, 1]
  {
    var h, fs := InitialHunter, [StaleFirst, StaleSecond, StaleThird];
    assert Collides(h, fs[0]) && Collides(h, fs[1]) && !Collides(h, fs[2]);
    assert CollidingFrom(h, fs, 3) == [];
    assert CollidingFrom(h, fs, 2) == [];
    assert CollidingFrom(h, fs, 1) == [1];
  }

  /**
    The hunter touches the first two of three items: the first filter
    drops position 0, the second drops position 1 of the shortened list,
    which holds the untouched third item. A touched item stays behind and
    an untouched one is lost, where the reference removal keeps just the third.
   */
  lemma StaleIndexDropsWrongItem()
    ensures Pass(InitialHunter, [StaleFirst, StaleSecond, StaleThird]) == [StaleSecond]
    ensures Keep(InitialHunter, [StaleFirst, StaleSecond, StaleThird]) == [StaleThird]
    ensures Collides(InitialHunter, StaleSecond) && !Collides(InitialHunter, StaleThird)
  {
    StalePass();
    StaleKeep();
  }

  lemma StalePass()
    ensures Pass(InitialHunter, [StaleFirst, StaleSecond, StaleThird]) == [StaleSecond]
  {
    StaleColliding();
    FirstTwoFilters(StaleFirst, StaleSecond, StaleThird);
  }

  /** Dropping position 0 and then position 1 of a three-item list leaves its middle item. */
  lemma FirstTwoFilters<T>(a: T, b: T, c: T)
    ensures RemoveEach([a, b, c], [0, 1]) == [b]
  {
    var idx: seq<nat> := [0, 1];
    var last: seq<nat> := [1];
    assert idx[1..] == last && last[1..] == [];
    DropFront(a, b, c);
    DropBack(b, c);
    assert RemoveEach([b, c], last) == RemoveEach([b], []);
  }

  lemma DropFront<T>(a: T, b: T, c: T)
    ensures RemoveAt([a, b, c], 0) == [b, c]
  {
    assert [a, b, c][1..] == [b, c];
  }

  lemma DropBack<T>(b: T, c: T)
    ensures RemoveAt([b, c], 1) == [b]
  {
    assert [b, c][..1] == [b];
  }

  lemma StaleKeep()
    ensures Keep(InitialHunter, [StaleFirst, StaleSecond, StaleThird]) == [StaleThird]
  {
    var h, fs := InitialHunter, [StaleFirst, StaleSecond, StaleThird];
    assert Collides(h, StaleFirst) && Collides(h, StaleSecond) && !Collides(h, StaleThird);
    assert fs[1..] == [StaleSecond, StaleThird] && fs[1..][1..] == [StaleThird];
    assert Keep(h, [StaleThird]) == [StaleThird] + Keep(h, []);
  }

  /** A random draw, as `Math.random()` returns it. */
  type Unit = r: real | 0.0 <= r < 1.0

  /** `Math.floor(roll * 4)`: each table row is picked by a quarter of the range of draws. */
  function KindIndex(roll: Unit): (i: nat)
    ensures i < |Kinds|
    ensures i as real <= roll * 4.0 < i as real + 1.0
  {
    (roll * 4.0).Floor
  }

  /**
    The spawner: with a draw below the spawn chance, one item of the picked
    kind is appended at `y` = -20 and a random position inside the
    track; otherwise the list stays as it is.
   */
  function Spawn(fs: seq<FoodItem>, chance: Unit, kindRoll: Unit, xRoll: Unit): (r: seq<FoodItem>)
    ensures chance < SpawnChance ==>
      && |r| == |fs| + 1
      && r[..|fs|] == fs
      && Spawned(r[|fs|])
      && r[|fs|].kind == Kinds[KindIndex(kindRoll)]
    ensures chance >= SpawnChance ==> r == fs
  {
    if chance < SpawnChance then
      var kind := Kinds[KindIndex(kindRoll)];
      var row := FoodRow(kind);
      fs + [FoodItem(xRoll * TrackEnd, SpawnY, kind, row.points, row.effect, row.value)]
    else fs
  }

  predicate AllSpawned(fs: seq<FoodItem>) {
    forall f :: f in fs ==> Spawned(f)
  }

  /** The collision pass and the spawner only ever leave table-made items in the list. */
  lemma PassAndSpawnKeepTableItems(h: Hunter, fs: seq<FoodItem>, chance: Unit, kindRoll: Unit, xRoll: Unit)
    requires AllSpawned(fs)
    ensures AllSpawned(Pass(h, fs))
    ensures AllSpawned(Spawn(Pass(h, fs), chance, kindRoll, xRoll))
  {
    var p := Pass(h, fs);
    forall f | f in p ensures Spawned(f) {
      assert f in multiset(p);
    }
    var r := Spawn(p, chance, kindRoll, xRoll);
    forall f | f in r ensures Spawned(f) {
      if chance < SpawnChance {
        assert r == r[..|p|] + [r[|p|]];
      }
    }
  }
}

=== FILE: game.dfy ===
/**
  The whole game as one state and two kinds of event: the 60-per-second
  tick and a key press.

  A tick runs the beast step, the food pass, the spawner and the jump update
  in that order. Every test inside the tick reads the state of the previous
  frame; the changes it makes are queued and applied in the order they were
  queued, each to the result of the ones before. The tick is skipped
  entirely once the game is over; key presses are not.
 */
module Game {
  import opened GameTypes
  import opened Physics
  import opened Obstacle
  import opened FoodPass

  datatype State = State(hunter: Hunter, foods: seq<FoodItem>, beast: Beast, score: real, gameOver: bool)

  const Initial: State := State(InitialHunter, [], InitialBeast, 0.0, false)

  /** The three `Math.random()` draws the spawner of one tick consumes. */
  datatype Draws = Draws(chance: Unit, kind: Unit, x: Unit)

  /**
    One tick. Once the game is over nothing changes. Otherwise the game ends
    exactly when the beast of the previous frame had come within 50 of the
    hunter, or past it, while the hunter was at height at most 70; the score
    rises by the points of every touched item plus the bonus for passing
    over the beast; the hunter eats every touched item and then falls if it
    was airborne, which is the jump update applied to the fed hunter.
   */
  function Tick(s: State, d: Draws): (r: State)
    ensures s.gameOver ==> r == s
    ensures !s.gameOver ==> r.gameOver == Caught(s.beast, s.hunter)
    ensures !s.gameOver ==>
      r.score - s.score == PointsTotal(Eaten(s.hunter, s.foods)) + (if PassesOver(s.hunter, s.beast) then ClearBonus else 0.0)
    ensures !s.gameOver ==> r.hunter == UpdateJump(EatAll(s.hunter, Eaten(s.hunter, s.foods)))
    ensures !s.gameOver ==> r.foods == Spawn(Pass(s.hunter, s.foods), d.chance, d.kind, d.x)
    ensures !s.gameOver ==> |s.foods| - |Colliding(s.hunter, s.foods)| <= |r.foods| <= |s.foods| + 1
    ensures !s.gameOver ==> r.beast.x == (if PassesOver(s.hunter, s.beast) then BeastReset else s.beast.x + s.beast.speed)
    ensures r.beast.speed == s.beast.speed
  {
    if s.gameOver then s
    else
      var step := Advance(s.beast, s.hunter);
      var eaten := Eaten(s.hunter, s.foods);
      var fed := EatAll(s.hunter, eaten);
      State(
        if Airborne(s.hunter) then Fall(fed) else fed,
        Spawn(Pass(s.hunter, s.foods), d.chance, d.kind, d.x),
        step.beast,
        s.score + step.bonus + PointsTotal(eaten),
        Caught(s.beast, s.hunter))
  }

  /** One key press: only the hunter changes, whether or not the game is over. */
  function KeyDown(s: State, k: Key): (r: State)
    ensures r.foods == s.foods && r.beast == s.beast && r.score == s.score && r.gameOver == s.gameOver
    ensures r.hunter.y == s.hunter.y && r.hunter.speed == s.hunter.speed
  {
    s.(hunter := Press(s.hunter, k))
  }

  datatype Event = TickEvent(draws: Draws) | KeyEvent(key: Key)

  function Step(s: State, e: Event): State {
    match e
    case TickEvent(d) => Tick(s, d)
    case KeyEvent(k) => KeyDown(s, k)
  }

  function Run(s: State, es: seq<Event>): State
    decreases |es|
  {
    if |es| == 0 then s else Run(Step(s, es[0]), es[1..])
  }

  /**
    What holds in every reachable state: the hunter is on or above the
    ground, its speed is at least the floor, and every food item is a table
    row made by the spawner.
   */
  predicate Invariant(s: State) {
    && s.hunter.y >= Ground
    && s.hunter.speed >= SpeedFloor
    && AllSpawned(s.foods)
  }

  /** Table-made items are worth positive points and positive stat values. */
  lemma EatenAreNonNegative(h: Hunter, fs: seq<FoodItem>)
    requires AllSpawned(fs)
    ensures AllNonNegative(Eaten(h, fs))
  {
    var eaten := Eaten(h, fs);
    forall i | 0 <= i < |eaten|
      ensures eaten[i].value >= 0.0 && eaten[i].points >= 0.0
    {
      assert eaten[i] in eaten;
    }
  }

  /** A tick keeps the invariant and never lowers the score. */
  lemma TickPreservesInvariant(s: State, d: Draws)
    requires Invariant(s)
    ensures Invariant(Tick(s, d))
    ensures Tick(s, d).score >= s.score
  {
    if !s.gameOver {
      EatenAreNonNegative(s.hunter, s.foods);
      PointsTotalNonNegative(Eaten(s.hunter, s.foods));
      PassAndSpawnKeepTableItems(s.hunter, s.foods, d.chance, d.kind, d.x);
    }
  }

  lemma StepPreservesInvariant(s: State, e: Event)
    requires Invariant(s)
    ensures Invariant(Step(s, e))
    ensures Step(s, e).score >= s.score
  {
    if e.TickEvent? {
      TickPreservesInvariant(s, e.draws);
    }
  }

  /**
    From any state that keeps the invariant, every sequence of ticks and key
    presses keeps it, and the score never goes down.
   */
  lemma {:induction false} RunPreservesInvariant(s: State, es: seq<Event>)
    requires Invariant(s)
    ensures Invariant(Run(s, es))
    ensures Run(s, es).score >= s.score
    decreases |es|
  {
    if |es| > 0 {
      StepPreservesInvariant(s, es[0]);
      RunPreservesInvariant(Step(s, es[0]), es[1..]);
    }
  }

  /** In every reachable state the hunter stands on or above the ground and is at least as fast as the floor. */
  lemma ReachableStatesAreSound(es: seq<Event>)
    ensures Run(Initial, es).hunter.y >= Ground
    ensures Run(Initial, es).hunter.speed >= SpeedFloor
    ensures Run(Initial, es).score >= 0.0
  {
    RunPreservesInvariant(Initial, es);
  }

  /**
    Once the game is over it stays over: the beast, the food list and the
    score are frozen, and only key presses still move the hunter.
   */
  lemma {:induction false} GameOverIsFinal(s: State, es: seq<Event>)
    requires s.gameOver
    ensures Run(s, es).gameOver
    ensures Run(s, es).beast == s.beast && Run(s, es).foods == s.foods && Run(s, es).score == s.score
    ensures (forall i :: 0 <= i < |es| ==> es[i].TickEvent?) ==> Run(s, es) == s
    decreases |es|
  {
    if |es| > 0 {
      GameOverIsFinal(Step(s, es[0]), es[1..]);
      if forall i :: 0 <= i < |es| ==> es[i].TickEvent? {
        assert es[0].TickEvent?;
        assert forall i :: 0 <= i < |es[1..]| ==> es[1..][i].TickEvent? by {
          forall i | 0 <= i < |es[1..]| ensures es[1..][i].TickEvent? {
            assert es[1..][i] == es[i + 1];
          }
        }
      }
    }
  }

  /** Draws that spawn nothing. */
  const NoSpawn: Draws := Draws(0.5, 0.0, 0.0)

  /** The three food items of the stale-index example, laid before the hunter's start position. */
  const StaleStart: State := Initial.(foods := [StaleFirst, StaleSecond, StaleThird])

  /**
    The touched second item is left in the list by the first tick and is
    eaten again by the next one: its 15 points are scored twice, while the
    untouched third item has disappeared.
   */
  lemma StaleItemScoresTwice()
    ensures Tick(StaleStart, NoSpawn).foods == [StaleSecond]
    ensures Tick(StaleStart, NoSpawn).score == 35.0
    ensures Tick(Tick(StaleStart, NoSpawn), NoSpawn).score == 50.0
  {
    StaleFirstTick();
    var once := Tick(StaleStart, NoSpawn);
    var h1 := once.hunter;
    assert Eaten(h1, [StaleSecond]) == [StaleSecond] + Eaten(h1, []);
    assert PointsTotal([StaleSecond]) == 15.0;
    assert !PassesOver(h1, once.beast);
  }

  lemma StaleEaten()
    ensures Eaten(InitialHunter, [StaleFirst, StaleSecond, StaleThird]) == [StaleFirst, StaleSecond]
    ensures PointsTotal([StaleFirst, StaleSecond]) == 35.0
  {
    var h, fs := InitialHunter, [StaleFirst, StaleSecond, StaleThird];
    assert Collides(h, StaleFirst) && Collides(h, StaleSecond) && !Collides(h, StaleThird);
    assert fs[1..] == [StaleSecond, StaleThird] && fs[1..][1..] == [StaleThird];
    assert Eaten(h, [StaleThird]) == [] + Eaten(h, []);
    assert [StaleFirst, StaleSecond][1..] == [StaleSecond];
    assert PointsTotal([StaleSecond]) == 15.0 + PointsTotal([]);
  }

  lemma StaleFirstTick()
    ensures Tick(StaleStart, NoSpawn).foods == [StaleSecond]
    ensures Tick(StaleStart, NoSpawn).score == 35.0
    ensures Tick(StaleStart, NoSpawn).hunter.x == 50.0
    ensures Tick(StaleStart, NoSpawn).hunter.y == Ground
    ensures !Tick(StaleStart, NoSpawn).gameOver
  {
    StaleIndexDropsWrongItem();
    StaleEaten();
    assert !PassesOver(InitialHunter, InitialBeast);
    assert !Airborne(InitialHunter);
    assert !Caught(InitialBeast, InitialHunter);
  }
}

=== FILE: jstext.dfy ===
/**
  JavaScript's `String.prototype.trim`: strip the white space and line
  terminators of section 12.2 and 12.3 of ECMA-262 from both ends.
 */
module JsText {

  /** The white space and line terminator characters `trim` removes. */
  predicate IsSpace(c: char) {
    || c == '\t' || c == '\n' || c == '\U{000B}' || c == '\U{000C}' || c == '\r' || c == ' '
    || c == '\U{00A0}' || c == '\U{1680}' || ('\U{2000}' <= c <= '\U{200A}')
    || c == '\U{2028}' || c == '\U{2029}' || c == '\U{202F}' || c == '\U{205F}'
    || c == '\U{3000}' || c == '\U{FEFF}'
  }

  predicate AllSpace(s: string) {
    forall i :: 0 <= i < |s| ==> IsSpace(s[i])
  }

  /** Neither end of the string is white space (the empty string qualifies). */
  predicate Trimmed(s: string) {
    |s| == 0 || (!IsSpace(s[0]) && !IsSpace(s[|s| - 1]))
  }

  /** The string without its leading white space: a suffix, and only white space was cut. */
  function TrimStart(s: string): (r: string)
    ensures |r| <= |s| && r == s[|s| - |r|..]
    ensures AllSpace(s[..|s| - |r|])
    ensures |r| > 0 ==> !IsSpace(r[0])
    decreases |s|
  {
    if |s| > 0 && IsSpace(s[0]) then TrimStart(s[1..]) else s
  }

  /** The string without its trailing white space: a prefix, and only white space was cut. */
  function TrimEnd(s: string): (r: string)
    ensures |r| <= |s| && r == s[..|r|]
    ensures AllSpace(s[|r|..])
    ensures |r| > 0 ==> !IsSpace(r[|r| - 1])
    decreases |s|
  {
    if |s| > 0 && IsSpace(s[|s| - 1]) then TrimEnd(s[..|s| - 1]) else s
  }

  /**
    `trim()`: no white space is left at either end, and the result is empty
    exactly when the input was all white space (which `!name.trim()` tests).
   */
  function Trim(s: string): (r: string)
    ensures |r| <= |s|
    ensures Trimmed(r)
    ensures |r| == 0 <==> AllSpace(s)
  {
    var t := TrimStart(s);
    var r := TrimEnd(t);
    if |r| > 0 then
      assert r[0] == t[0];
      assert s[|s| - |t|] == t[0];
      r
    else
      assert |t| == 0;
      assert s[..|s|] == s;
      r
  }

  lemma {:induction false} TrimStartOfPadded(pad: string, t: string)
    requires AllSpace(pad)
    requires |t| == 0 || !IsSpace(t[0])
    ensures TrimStart(pad + t) == t
    decreases |pad|
  {
    if |pad| == 0 {
      assert pad + t == t;
    } else {
      assert (pad + t)[1..] == pad[1..] + t;
      TrimStartOfPadded(pad[1..], t);
    }
  }

  lemma {:induction false} TrimEndOfPadded(t: string, pad: string)
    requires AllSpace(pad)
    requires |t| == 0 || !IsSpace(t[|t| - 1])
    ensures TrimEnd(t + pad) == t
    decreases |pad|
  {
    if |pad| == 0 {
      assert t + pad == t;
    } else {
      var shorter := pad[..|pad| - 1];
      assert (t + pad)[..|t + pad| - 1] == t + shorter;
      TrimEndOfPadded(t, shorter);
    }
  }

  /** Padding a trimmed string with white space on both sides and trimming gives it back. */
  lemma TrimOfPadded(before: string, t: string, after: string)
    requires AllSpace(before) && AllSpace(after) && Trimmed(t)
    ensures Trim(before + t + after) == t
  {
    if |t| == 0 {
      var all := before + t + after;
      assert AllSpace(all) by {
        forall i | 0 <= i < |all| ensures IsSpace(all[i]) {
          if i < |before| { assert all[i] == before[i]; } else { assert all[i] == after[i - |before|]; }
        }
      }
      assert |Trim(all)| == 0;
    } else {
      assert before + t + after == before + (t + after);
      TrimStartOfPadded(before, t + after);
      TrimEndOfPadded(t, after);
    }
  }

  /** A string with no white space at either end is its own trim. */
  lemma TrimmedIsFixed(t: string)
    requires Trimmed(t)
    ensures Trim(t) == t
  {
    assert TrimStart(t) == t;
  }

  /** Trimming twice is trimming once. */
  lemma TrimIdempotent(s: string)
    ensures Trim(Trim(s)) == Trim(s)
  {
    TrimmedIsFixed(Trim(s));
  }

  /** The name `"  Ann  "` is trimmed to `"Ann"`. */
  lemma TrimExample()
    ensures Trim("  Ann  ") == "Ann"
  {
    assert "  Ann  " == "  " + "Ann" + "  ";
    TrimOfPadded("  ", "Ann", "  ");
  }
}

=== FILE: leaderboard.dfy ===
/**
  The leaderboard endpoint: POST validates and stores one score, GET lists
  the ten best. The score collection is a sequence of records; the database
  connection, the body parser and the insert are given as their outcomes.
 */
module Leaderboard {
  import opened JsText

  /** A parsed JSON request body. */
  datatype Json =
    | JNull
    | JBool(b: bool)
    | JNum(n: real)
    | JStr(s: string)
    | JArray(items: seq<Json>)
    | JObject(fields: map<string, Json>)

  /** The request body as `req.json()` leaves it. */
  datatype Body = Malformed | Parsed(json: Json)

  /** What destructuring one property out of the body yields. */
  datatype Read = Thrown | Undefined | Defined(value: Json)

  /** `const { key } = body`: `null` throws; an object gives its field; every other value lacks the property. */
  function Property(body: Json, key: string): (r: Read)
    ensures r.Thrown? <==> body.JNull?
    ensures r.Defined? <==> body.JObject? && key in body.fields
    ensures r.Defined? ==> r.value == body.fields[key]
  {
    match body
    case JNull => Thrown
    case JObject(m) => if key in m then Defined(m[key]) else Undefined
    case _ => Undefined
  }

  datatype Record = Record(score: real, name: string, date: int)

  datatype Payload = Message(text: string) | Failure(text: string) | Scores(records: seq<Record>)

  datatype Response = Response(status: int, payload: Payload)

  /** The response of a POST together with the collection it leaves behind. */
  datatype Posted = Posted(response: Response, store: seq<Record>)

  /** What a POST must carry to be stored: a numeric score and a name that is not all white space. */
  predicate Acceptable(j: Json) {
    && j.JObject?
    && "score" in j.fields && j.fields["score"].JNum?
    && "name" in j.fields && j.fields["name"].JStr?
    && !AllSpace(j.fields["name"].s)
  }

  /**
    POST /api/leaderboard. The connection is opened before the body is read,
    so a failed connection answers 500 whatever the body; a body that is not
    JSON, or is `null`, makes the handler throw, which also answers 500.
    Otherwise an unacceptable body answers 400 and an acceptable one is
    stored with its name trimmed and the current time, answering 201, or 500
    if the insert fails. Nothing is stored unless the answer is 201.
   */
  function Post(store: seq<Record>, connected: bool, body: Body, inserted: bool, now: int): (r: Posted)
    ensures r.response.status in {201, 400, 500}
    ensures r.response.status == 400 <==> connected && body.Parsed? && !body.json.JNull? && !Acceptable(body.json)
    ensures r.response.status == 201 <==> connected && body.Parsed? && Acceptable(body.json) && inserted
    ensures r.response.status != 201 ==> r.store == store && r.response.payload.Failure?
    ensures r.response.status == 400 ==> r.response.payload == Failure("Invalid score or name")
    ensures r.response.status == 201 ==>
      && r.response.payload == Message("Score saved")
      && |r.store| == |store| + 1
      && r.store[..|store|] == store
      && r.store[|store|].score == body.json.fields["score"].n
      && r.store[|store|].name == Trim(body.json.fields["name"].s)
      && r.store[|store|].date == now
      && |r.store[|store|].name| > 0
      && Trimmed(r.store[|store|].name)
  {
    var failed := Posted(Response(500, Failure("Failed to save score")), store);
    if !connected || body.Malformed? then failed
    else
      var score := Property(body.json, "score");
      var name := Property(body.json, "name");
      var invalid := Posted(Response(400, Failure("Invalid score or name")), store);
      if score.Thrown? || name.Thrown? then failed
      else if !(score.Defined? && score.value.JNum? && name.Defined? && name.value.JStr?) then invalid
      else if Trim(name.value.s) == "" then invalid
      else if !inserted then failed
      else
        var record := Record(score.value.n, Trim(name.value.s), now);
        assert (store + [record])[..|store|] == store;
        Posted(Response(201, Message("Score saved")), store + [record])
  }

  predicate Descending(rs: seq<Record>) {
    forall i, j :: 0 <= i < j < |rs| ==> rs[i].score >= rs[j].score
  }

  function Min(a: nat, b: nat): nat {
    if a < b then a else b
  }

  /**
    `rs` is a valid answer to "the best `k` records of `store`, best first":
    as many as there are up to `k`, taken from the store, in non-increasing
    score order, and no record left out scores above the last one listed.
    Records of equal score may be listed in any order.
   */
  ghost predicate IsTop(store: seq<Record>, rs: seq<Record>, k: nat) {
    && |rs| == Min(k, |store|)
    && multiset(rs) <= multiset(store)
    && Descending(rs)
    && (|rs| > 0 ==> forall x :: x in multiset(store) - multiset(rs) ==> x.score <= rs[|rs| - 1].score)
  }

  /** The position of a best-scoring record. */
  function BestIndex(s: seq<Record>): (i: nat)
    requires |s| > 0
    ensures i < |s|
    ensures forall j :: 0 <= j < |s| ==> s[j].score <= s[i].score
  {
    if |s| == 1 then 0
    else
      var m := BestIndex(s[1..]) + 1;
      assert forall j :: 1 <= j < |s| ==> s[j] == s[1..][j - 1];
      if s[0].score >= s[m].score then 0 else m
  }

  /** Taking out the entry at `m` takes exactly one copy of it out of the bag. */
  lemma BagWithout(s: seq<Record>, m: nat)
    requires m < |s|
    ensures multiset(s[..m] + s[m + 1..]) == multiset(s) - multiset{s[m]}
    ensures multiset(s) == multiset(s[..m] + s[m + 1..]) + multiset{s[m]}
  {
    assert s == s[..m] + [s[m]] + s[m + 1..];
  }

  /** No entry of a sub-bag of `s` outscores the best of `s`. */
  lemma SubBagBelowBest(s: seq<Record>, m: nat, t: seq<Record>)
    requires m < |s|
    requires forall j :: 0 <= j < |s| ==> s[j].score <= s[m].score
    requires multiset(t) <= multiset(s[..m] + s[m + 1..])
    ensures forall x :: x in multiset(s[..m] + s[m + 1..]) ==> x.score <= s[m].score
    ensures forall i :: 0 <= i < |t| ==> t[i].score <= s[m].score
  {
    var rest := s[..m] + s[m + 1..];
    forall x: Record | x in multiset(rest)
      ensures x.score <= s[m].score
    {
      assert x in rest;
      var j :| 0 <= j < |rest| && rest[j] == x;
      if j < m { assert x == s[j]; } else { assert x == s[j + 1]; }
    }
    forall i | 0 <= i < |t|
      ensures t[i].score <= s[m].score
    {
      assert t[i] in multiset(t);
    }
  }

  /** The best record in front of a descending list drawn from the others keeps it descending. */
  lemma BestInFrontDescends(best: Record, t: seq<Record>)
    requires Descending(t)
    requires forall i :: 0 <= i < |t| ==> t[i].score <= best.score
    ensures Descending([best] + t)
  {
    var r := [best] + t;
    forall i, j | 0 <= i < j < |r| ensures r[i].score >= r[j].score {
      assert r[j] == t[j - 1];
      if i > 0 { assert r[i] == t[i - 1]; }
    }
  }

  /** Records left out after putting the best one in front score no more than the last one listed. */
  lemma OmittedBelowLast(rest: seq<Record>, best: Record, t: seq<Record>, k: nat)
    requires k > 0 && IsTop(rest, t, k - 1)
    requires forall x :: x in multiset(rest) ==> x.score <= best.score
    ensures forall x :: x in (multiset(rest) + multiset{best}) - multiset([best] + t) ==> x.score <= ([best] + t)[|t|].score
  {
    var r := [best] + t;
    assert multiset(r) == multiset(t) + multiset{best};
    assert (multiset(rest) + multiset{best}) - multiset(r) == multiset(rest) - multiset(t);
    if |t| > 0 {
      assert r[|t|] == t[|t| - 1];
    } else {
      forall x | x in multiset(rest) - multiset(t) ensures x.score <= best.score {
        assert x in multiset(rest);
      }
    }
  }

  /** Putting the best record in front of a valid answer for the rest gives a valid answer for the whole. */
  lemma TopStep(s: seq<Record>, m: nat, t: seq<Record>, k: nat)
    requires m < |s| && k > 0
    requires forall j :: 0 <= j < |s| ==> s[j].score <= s[m].score
    requires IsTop(s[..m] + s[m + 1..], t, k - 1)
    ensures IsTop(s, [s[m]] + t, k)
  {
    var rest := s[..m] + s[m + 1..];
    BagWithout(s, m);
    SubBagBelowBest(s, m, t);
    BestInFrontDescends(s[m], t);
    OmittedBelowLast(rest, s[m], t, k);
    assert multiset([s[m]] + t) == multiset(t) + multiset{s[m]};
  }

  /** The best `k` records, best first, found by repeatedly taking out a best one. */
  function TopScores(s: seq<Record>, k: nat): (r: seq<Record>)
    ensures IsTop(s, r, k)
    decreases k
  {
    if k == 0 || |s| == 0 then []
    else
      var m := BestIndex(s);
      var rest := s[..m] + s[m + 1..];
      var t := TopScores(rest, k - 1);
      TopStep(s, m, t, k);
      [s[m]] + t
  }

  const PageSize: nat := 10

  /** GET /api/leaderboard: the ten best records, best first, or 500 when the collection cannot be read. */
  function Get(store: seq<Record>, available: bool): (r: Response)
    ensures !available ==> r == Response(500, Failure("Failed to fetch scores"))
    ensures available ==> r.status == 200 && r.payload.Scores? && IsTop(store, r.payload.records, PageSize)
    ensures available ==> |r.payload.records| <= PageSize
  {
    if available then Response(200, Scores(TopScores(store, PageSize))) else Response(500, Failure("Failed to fetch scores"))
  }

  /** How many records of `s` score at least `v`. */
  function CountAtLeast(s: seq<Record>, v: real): nat {
    if |s| == 0 then 0 else (if s[0].score >= v then 1 else 0) + CountAtLeast(s[1..], v)
  }

  /** Cancelling one element on both sides of a bag inclusion. */
  lemma BagCancel(a: multiset<Record>, b: multiset<Record>, x: Record)
    requires a <= b + multiset{x}
    ensures a - multiset{x} <= b
    ensures x !in a ==> a <= b
  {
    forall y ensures (a - multiset{x})[y] <= b[y] {
      if y == x {
        assert (b + multiset{x})[y] == b[y] + 1;
      } else {
        assert (b + multiset{x})[y] == b[y];
      }
    }
    if x !in a {
      forall y ensures a[y] <= b[y] {
        if y != x {
          assert (b + multiset{x})[y] == b[y];
        }
      }
    }
  }

  lemma FirstOut(s: seq<Record>)
    requires |s| > 0
    ensures multiset(s) == multiset(s[1..]) + multiset{s[0]}
  {
    assert s == [s[0]] + s[1..];
  }

  /** Removing from `rs` the copy of the first entry of `s` leaves a sub-bag of the rest of `s`. */
  lemma DropFirstMatch(rs: seq<Record>, s: seq<Record>, v: real) returns (others: seq<Record>)
    requires |s| > 0 && s[0] in multiset(rs)
    requires multiset(rs) <= multiset(s)
    requires forall i :: 0 <= i < |rs| ==> rs[i].score >= v
    ensures |others| == |rs| - 1
    ensures multiset(others) <= multiset(s[1..])
    ensures forall j :: 0 <= j < |others| ==> others[j].score >= v
  {
    var x := s[0];
    FirstOut(s);
    BagCancel(multiset(rs), multiset(s[1..]), x);
    assert x in rs;
    var i :| 0 <= i < |rs| && rs[i] == x;
    others := rs[..i] + rs[i + 1..];
    BagWithout(rs, i);
    WithoutKeepsBound(rs, i, others, v);
  }

  lemma WithoutKeepsBound(rs: seq<Record>, i: nat, others: seq<Record>, v: real)
    requires i < |rs| && others == rs[..i] + rs[i + 1..]
    requires forall j :: 0 <= j < |rs| ==> rs[j].score >= v
    ensures forall j :: 0 <= j < |others| ==> others[j].score >= v
  {
    forall j | 0 <= j < |others| ensures others[j].score >= v {
      if j < i { assert others[j] == rs[j]; } else { assert others[j] == rs[j + 1]; }
    }
  }

  /** Entries of a sub-bag of `s` that all score at least `v` are no more than `CountAtLeast(s, v)`. */
  lemma {:induction false} SubBagCount(rs: seq<Record>, s: seq<Record>, v: real)
    requires multiset(rs) <= multiset(s)
    requires forall i :: 0 <= i < |rs| ==> rs[i].score >= v
    ensures |rs| <= CountAtLeast(s, v)
    decreases |s|
  {
    if |s| == 0 {
      assert |multiset(rs)| == 0;
    } else if s[0] in multiset(rs) {
      var others := DropFirstMatch(rs, s, v);
      SubBagCount(others, s[1..], v);
      assert s[0] in rs;
    } else {
      FirstOut(s);
      BagCancel(multiset(rs), multiset(s[1..]), s[0]);
      SubBagCount(rs, s[1..], v);
    }
  }

  lemma {:induction false} CountAtMostLength(s: seq<Record>, v: real)
    ensures CountAtLeast(s, v) <= |s|
    decreases |s|
  {
    if |s| > 0 {
      CountAtMostLength(s[1..], v);
    }
  }

  /**
    A record added to a collection in which fewer than ten records score at
    least as much is listed by every valid top-ten answer.
   */
  lemma RankedRecordIsListed(store: seq<Record>, rec: Record, rs: seq<Record>)
    requires IsTop(store + [rec], rs, PageSize)
    requires CountAtLeast(store, rec.score) < PageSize
    ensures rec in rs
  {
    var all := store + [rec];
    if rec !in rs {
      assert multiset(all) == multiset(store) + multiset{rec};
      assert rec in multiset(all) - multiset(rs);
      assert |rs| > 0;
      forall i | 0 <= i < |rs| ensures rs[i].score >= rec.score {
        assert rs[i].score >= rs[|rs| - 1].score;
      }
      assert multiset(rs) <= multiset(store) by {
        forall x ensures multiset(rs)[x] <= multiset(store)[x] {
          if x == rec {
            assert multiset(rs)[x] == 0;
          }
        }
      }
      SubBagCount(rs, store, rec.score);
      CountAtMostLength(store, rec.score);
      assert false;
    }
  }

  /**
    A successful POST followed by a GET: the stored record, with its name
    trimmed, is listed whenever fewer than ten earlier records score at least as much.
   */
  lemma PostThenGet(store: seq<Record>, body: Body, now: int)
    requires body.Parsed? && Acceptable(body.json)
    requires CountAtLeast(store, body.json.fields["score"].n) < PageSize
    ensures
      var posted := Post(store, true, body, true, now);
      && posted.response.status == 201
      && Record(body.json.fields["score"].n, Trim(body.json.fields["name"].s), now) in Get(posted.store, true).payload.records
  {
    var posted := Post(store, true, body, true, now);
    var rec := Record(body.json.fields["score"].n, Trim(body.json.fields["name"].s), now);
    AcceptedIsStored(store, body, now);
    RankedRecordIsListed(store, rec, Get(posted.store, true).payload.records);
  }

  const AnnBody: Body := Parsed(JObject(map["score" := JNum(120.0), "name" := JStr("  Ann  ")]))

  /** An acceptable body posted while the database works is stored with its name trimmed. */
  lemma AcceptedIsStored(store: seq<Record>, body: Body, now: int)
    requires body.Parsed? && Acceptable(body.json)
    ensures Post(store, true, body, true, now).store
      == store + [Record(body.json.fields["score"].n, Trim(body.json.fields["name"].s), now)]
  {
    var posted := Post(store, true, body, true, now);
    var rec := Record(body.json.fields["score"].n, Trim(body.json.fields["name"].s), now);
    assert posted.response.status == 201;
    assert posted.store[|store|] == rec;
    assert posted.store == posted.store[..|store|] + [posted.store[|store|]];
  }

  lemma AnnAcceptable()
    ensures AnnBody.Parsed? && Acceptable(AnnBody.json)
    ensures AnnBody.json.fields["score"].n == 120.0 && AnnBody.json.fields["name"].s == "  Ann  "
  {
    var name := "  Ann  ";
    assert !IsSpace(name[2]);
  }

  lemma AnnPosted(now: int)
    ensures Post([], true, AnnBody, true, now).store == [Record(120.0, "Ann", now)]
  {
    AnnAcceptable();
    TrimExample();
    AcceptedIsStored([], AnnBody, now);
  }

  /** A collection of one record is listed whole. */
  lemma SingleRecordListed(rec: Record)
    ensures Get([rec], true).payload.records == [rec]
  {
    var rs := Get([rec], true).payload.records;
    assert |rs| == 1 && multiset(rs) <= multiset([rec]);
    assert rs[0] in multiset(rs);
  }

  /** A score of 120 posted under the name "  Ann  " is stored as "Ann" and listed by the next GET. */
  lemma AnnExample(now: int)
    ensures Post([], true, AnnBody, true, now).store == [Record(120.0, "Ann", now)]
    ensures Get(Post([], true, AnnBody, true, now).store, true).payload.records == [Record(120.0, "Ann", now)]
  {
    AnnPosted(now);
    SingleRecordListed(Record(120.0, "Ann", now));
  }
}

=== FILE: obstacle.dfy ===
/**
  The beast: its per-tick advance, the reward for passing over it, and the
  game-over test against it.
 */
module Obstacle {
  import opened GameTypes

  /** The beast after one tick, and the score the tick earns from it. */
  datatype Step = Step(beast: Beast, bonus: real)

  /**
    The hunter passes over the beast when it is above the clear height and
    horizontally within reach of where the beast is about to be.
   */
  predicate PassesOver(h: Hunter, b: Beast) {
    h.y > ClearHeight && Abs(h.x - (b.x + b.speed)) < Reach
  }

  /**
    One beast step against the hunter of the previous frame: either the
    beast is passed over (bonus, back to the reset position) or it advances
    by its speed. Its speed never changes and no other bonus is paid.
   */
  function Advance(b: Beast, h: Hunter): (r: Step)
    ensures r.beast.speed == b.speed
    ensures PassesOver(h, b) ==> r.beast.x == BeastReset && r.bonus == ClearBonus
    ensures !PassesOver(h, b) ==> r.beast.x == b.x + b.speed && r.bonus == 0.0
    ensures r.bonus >= 0.0
  {
    var newX := b.x + b.speed;
    if h.y > ClearHeight && Abs(h.x - newX) < Reach then Step(b.(x := BeastReset), ClearBonus)
    else Step(b.(x := newX), 0.0)
  }

  /**
    The game-over test, on the beast and hunter as they were before the
    tick: the beast has come within reach of the hunter from the left, or
    run past it, while the hunter is no higher than the clear height. A
    hunter in the air but at or below that height is caught too.
   */
  function Caught(b: Beast, h: Hunter): (r: bool)
    ensures r ==> h.y <= ClearHeight && !PassesOver(h, b)
    ensures h.y <= ClearHeight && b.x >= h.x ==> r
  {
    b.x >= h.x - Reach && h.y <= ClearHeight
  }

  /**
    Whether the hunter is caught depends on its height only through the
    clear height: a hunter at any height up to 70, on the ground or mid-jump,
    is caught by the same beasts, and a beast further right catches whenever
    one further left does.
   */
  lemma CaughtUpToClearHeight(b: Beast, h: Hunter, y: real, further: real)
    requires Ground <= y <= ClearHeight && h.y <= ClearHeight && further >= b.x
    ensures Caught(b, h) <==> Caught(b, h.(y := y))
    ensures Caught(b, h) ==> Caught(b.(x := further), h)
  {
  }

  /** A hunter mid-jump at height 60 is caught by a beast 40 behind it. */
  lemma CaughtMidJump()
    ensures Caught(Beast(10.0, 3.0), Hunter(50.0, 60.0, 5.0, 0.0, 0.0, true, 4.0))
  {
  }

  /**
    Passing over the beast and being caught by it exclude each other within
    one tick: a hunter high enough to pass is never caught.
   */
  lemma PassingExcludesCaught(b: Beast, h: Hunter)
    ensures PassesOver(h, b) ==> !Caught(b, h)
    ensures Advance(b, h).bonus > 0.0 ==> !Caught(b, h)
  {
  }

  /**
    A beast with positive speed keeps moving right until it is passed over
    and reset.
   */
  lemma AdvanceMovesRight(b: Beast, h: Hunter)
    requires b.speed > 0.0
    ensures Advance(b, h).beast.x > b.x || Advance(b, h).beast.x == BeastReset
  {
  }
}

=== FILE: physics.dfy ===
/**
  The hunter's own rules: the food collision box, the stat changes a food
  causes, gravity, the jump impulse and the arrow-key moves.
 */
module Physics {
  import opened GameTypes

  /** Box proximity of two points: closer than `Reach` on both axes (not Euclidean distance). */
  predicate Near(x1: real, y1: real, x2: real, y2: real) {
    Abs(x1 - x2) < Reach && Abs(y1 - y2) < Reach
  }

  /** The food collision test: the hunter and the item overlap as boxes. */
  function Collides(h: Hunter, f: FoodItem): (r: bool)
    ensures r <==> (f.x - Reach < h.x < f.x + Reach && f.y - Reach < h.y < f.y + Reach)
  {
    Near(h.x, h.y, f.x, f.y)
  }

  /** Swapping the two points never changes the outcome of the test. */
  lemma NearSymmetric(x1: real, y1: real, x2: real, y2: real)
    ensures Near(x1, y1, x2, y2) <==> Near(x2, y2, x1, y1)
  {
  }

  /**
    A food item keeps its spawn `y` of -20 for good, and the collision test
    compares it with the hunter's height as if both were heights, so a hunter
    standing on or above the ground can reach it only in the lowest 10 units
    of its jump.
   */
  lemma SpawnedFoodOnlyNearGround(h: Hunter, f: FoodItem)
    requires Spawned(f) && h.y >= Ground
    ensures Collides(h, f) ==> h.y < Ground + 10.0
    ensures h.y >= Ground + 10.0 ==> !Collides(h, f)
  {
  }

  /** Eating one food item: the stat named by its effect changes, nothing else about the hunter does. */
  function Eat(h: Hunter, f: FoodItem): (r: Hunter)
    ensures r.x == h.x && r.y == h.y
    ensures r.isJumping == h.isJumping && r.jumpVelocity == h.jumpVelocity
    ensures f.effect == Speed ==> r.speed == h.speed + f.value && r.weight == h.weight && r.muscle == h.muscle
    ensures f.effect == Muscle ==> r.muscle == h.muscle + f.value && r.speed == h.speed && r.weight == h.weight
    ensures f.effect == Weight ==>
      && r.weight == h.weight + f.value
      && r.muscle == h.muscle
      && r.speed == Max(SpeedFloor, h.speed - WeightPenalty)
    ensures h.speed >= SpeedFloor && f.value >= 0.0 ==> r.speed >= SpeedFloor
  {
    h.(
      speed :=
        if f.effect == Speed then h.speed + f.value
        else if f.effect == Weight then Max(SpeedFloor, h.speed - WeightPenalty)
        else h.speed,
      weight := if f.effect == Weight then h.weight + f.value else h.weight,
      muscle := if f.effect == Muscle then h.muscle + f.value else h.muscle)
  }

  /** The total `value` of the items in `fs` whose effect is `e`. */
  function EffectTotal(fs: seq<FoodItem>, e: Effect): real {
    if |fs| == 0 then 0.0
    else (if fs[0].effect == e then fs[0].value else 0.0) + EffectTotal(fs[1..], e)
  }

  /** The total score the items in `fs` are worth. */
  function PointsTotal(fs: seq<FoodItem>): real {
    if |fs| == 0 then 0.0 else fs[0].points + PointsTotal(fs[1..])
  }

  predicate AllNonNegative(fs: seq<FoodItem>) {
    forall i :: 0 <= i < |fs| ==> fs[i].value >= 0.0 && fs[i].points >= 0.0
  }

  /**
    Eating the items of `fs` one after the other, in list order. Weight and
    muscle grow by the summed values of their items; position and jump state
    stay; speed never drops below the floor when no value is negative.
   */
  function EatAll(h: Hunter, fs: seq<FoodItem>): (r: Hunter)
    ensures r.x == h.x && r.y == h.y
    ensures r.isJumping == h.isJumping && r.jumpVelocity == h.jumpVelocity
    ensures r.weight == h.weight + EffectTotal(fs, Weight)
    ensures r.muscle == h.muscle + EffectTotal(fs, Muscle)
    ensures h.speed >= SpeedFloor && AllNonNegative(fs) ==> r.speed >= SpeedFloor
    decreases |fs|
  {
    if |fs| == 0 then h else EatAll(Eat(h, fs[0]), fs[1..])
  }

  /** Non-negative points never lower the running total. */
  lemma {:induction false} PointsTotalNonNegative(fs: seq<FoodItem>)
    requires AllNonNegative(fs)
    ensures PointsTotal(fs) >= 0.0
    decreases |fs|
  {
    if |fs| > 0 {
      assert AllNonNegative(fs[1..]) by {
        forall i | 0 <= i < |fs[1..]| ensures fs[1..][i].value >= 0.0 && fs[1..][i].points >= 0.0 {
          assert fs[1..][i] == fs[i + 1];
        }
      }
      PointsTotalNonNegative(fs[1..]);
    }
  }

  /** One tick of gravity, applied unconditionally: the velocity drops and the height is clamped at the ground. */
  function Fall(h: Hunter): (r: Hunter)
    ensures r.jumpVelocity == h.jumpVelocity - Gravity
    ensures r.y >= Ground
    ensures r.y == Ground || r.y == h.y + r.jumpVelocity
    ensures r.y >= h.y + r.jumpVelocity
    ensures r.isJumping <==> (r.y > Ground || r.jumpVelocity > 0.0)
    ensures r.x == h.x && r.speed == h.speed && r.weight == h.weight && r.muscle == h.muscle
  {
    var v := h.jumpVelocity - Gravity;
    var y := Max(Ground, h.y + v);
    h.(y := y, jumpVelocity := v, isJumping := y > Ground || v > 0.0)
  }

  /** Whether the jump update of a tick runs for this hunter. */
  predicate Airborne(h: Hunter) {
    h.isJumping || h.y > Ground
  }

  /**
    The jump update of a tick: gravity for an airborne hunter, nothing for a
    resting one. It never lets a hunter that starts at or above the ground go below it.
   */
  function UpdateJump(h: Hunter): (r: Hunter)
    ensures !h.isJumping && h.y <= Ground ==> r == h
    ensures h.y >= Ground ==> r.y >= Ground
    ensures r.x == h.x && r.speed == h.speed && r.weight == h.weight && r.muscle == h.muscle
    ensures Airborne(h) ==> r.jumpVelocity == h.jumpVelocity - Gravity && r.y == Max(Ground, h.y + r.jumpVelocity)
    ensures Airborne(h) ==> (r.isJumping <==> r.y > Ground || r.jumpVelocity > 0.0)
  {
    if Airborne(h) then Fall(h) else h
  }

  /** Grounded, at rest, on the ground: the jump update leaves the hunter exactly as it was. */
  lemma RestingIsFixedPoint(h: Hunter)
    requires !h.isJumping && h.y == Ground && h.jumpVelocity == 0.0
    ensures UpdateJump(h) == h
    ensures UpdateJump(UpdateJump(h)) == UpdateJump(h)
  {
  }

  /** Take-off velocity: muscle raises it, weight lowers it. */
  function JumpVelocity(h: Hunter): real {
    15.0 + h.muscle / 10.0 - h.weight / 20.0
  }

  /** A heavier hunter with no more muscle never jumps faster. */
  lemma JumpVelocityMonotone(a: Hunter, b: Hunter)
    requires a.muscle >= b.muscle && a.weight <= b.weight
    ensures JumpVelocity(a) >= JumpVelocity(b)
  {
  }

  /** The jump key: take off only when not already jumping, changing only the jump fields. */
  function Jump(h: Hunter): (r: Hunter)
    ensures h.isJumping ==> r == h
    ensures !h.isJumping ==> r.isJumping && r.jumpVelocity == JumpVelocity(h)
    ensures r.x == h.x && r.y == h.y && r.speed == h.speed && r.weight == h.weight && r.muscle == h.muscle
  {
    if h.isJumping then h else h.(isJumping := true, jumpVelocity := JumpVelocity(h))
  }

  /** A hunter with muscle 20 and weight 40 takes off at velocity 15. */
  lemma JumpExample()
    ensures Jump(InitialHunter.(muscle := 20.0, weight := 40.0)).jumpVelocity == 15.0
  {
  }

  /**
    Taking off from the start position, the hunter is above the clear
    height after four ticks of gravity: 34.2, 47.6, 60.2, then 72.
   */
  lemma JumpReachesClearHeight()
    ensures Fall(Fall(Fall(Fall(Jump(InitialHunter))))).y == 72.0 > ClearHeight
  {
    var h1 := Fall(Jump(InitialHunter));
    assert h1.y == 34.2 && h1.jumpVelocity == 14.2;
    var h2 := Fall(h1);
    assert h2.y == 47.6 && h2.jumpVelocity == 13.4;
    var h3 := Fall(h2);
    assert h3.y == 60.2 && h3.jumpVelocity == 12.6;
  }

  datatype Key = ArrowLeft | ArrowRight | ArrowUp | Space | OtherKey

  /**
    One key press. Each arrow moves by one step of the current speed, but
    the guard looks at the position BEFORE the move, so a step can end past
    the track edge; a hunter already at or past an edge cannot be moved further out.
   */
  function Press(h: Hunter, k: Key): (r: Hunter)
    ensures r.y == h.y && r.speed == h.speed && r.weight == h.weight && r.muscle == h.muscle
    ensures k == ArrowLeft ==> r.x == (if h.x > 0.0 then h.x - h.speed else h.x)
    ensures k == ArrowRight ==> r.x == (if h.x < TrackEnd then h.x + h.speed else h.x)
    ensures k == ArrowLeft || k == ArrowRight ==> r.isJumping == h.isJumping && r.jumpVelocity == h.jumpVelocity
    ensures (k == ArrowLeft && h.x <= 0.0) || (k == ArrowRight && h.x >= TrackEnd) ==> r == h
    ensures k != ArrowLeft && k != ArrowRight ==> r.x == h.x
    ensures k == ArrowUp || k == Space ==> r == Jump(h)
    ensures k == OtherKey ==> r == h
    ensures h.speed > 0.0 && 0.0 <= h.x <= TrackEnd ==> -h.speed < r.x < TrackEnd + h.speed
  {
    match k
    case ArrowLeft => if h.x > 0.0 then h.(x := h.x - h.speed) else h
    case ArrowRight => if h.x < TrackEnd then h.(x := h.x + h.speed) else h
    case ArrowUp => Jump(h)
    case Space => Jump(h)
    case OtherKey => h
  }

  /** The band of positions that key presses can never leave: less than one step outside the track. */
  predicate InBand(h: Hunter) {
    h.speed > 0.0 && -h.speed < h.x < TrackEnd + h.speed
  }

  /** Key presses keep the hunter inside the band, though not inside the track itself. */
  lemma PressKeepsBand(h: Hunter, k: Key)
    requires InBand(h)
    ensures InBand(Press(h, k))
  {
  }

  /** The right arrow from 748 at speed 5 ends at 753, past the track edge of 750. */
  lemma PressOvershootsEdge()
    ensures Press(InitialHunter.(x := 748.0), ArrowRight).x == 753.0 > TrackEnd
  {
  }
}

=== FILE: types.dfy ===
/**
  The records of the game (hunter, food item, beast), the fixed tuning
  constants of the simulation and the four-row food table.
  Every number of the game is a JavaScript `number`; it is modelled as `real`.
 */
module GameTypes {

  /** The player character. `y` is the height above the bottom of the canvas. */
  datatype Hunter = Hunter(
    x: real,
    y: real,
    speed: real,
    weight: real,
    muscle: real,
    isJumping: bool,
    jumpVelocity: real)

  datatype Kind = Protein | Carb | Fat | Sugar

  /** The stat a food item changes. */
  datatype Effect = Muscle | Speed | Weight

  /**
    A collectible. `points`, `effect` and `value` are copied from the food
    table row of `kind`. `y` is drawn as an offset from the TOP of the canvas,
    while the hunter's `y` is a height above the bottom; the collision test
    compares the two as one axis all the same.
   */
  datatype FoodItem = FoodItem(x: real, y: real, kind: Kind, points: real, effect: Effect, value: real)

  /** The obstacle running towards the hunter. */
  datatype Beast = Beast(x: real, speed: real)

  /** One row of the food table: what eating a food of that kind is worth. */
  datatype Row = Row(points: real, effect: Effect, value: real)

  const Ground: real := 20.0         // resting height of the hunter
  const Gravity: real := 0.8         // velocity lost per tick while airborne
  const Reach: real := 50.0          // the 50 of every proximity test: half-width of the food box, pass-over distance, catch offset
  const ClearHeight: real := 70.0    // height above which the hunter passes over the beast
  const BeastReset: real := -100.0   // off-screen position the beast restarts from
  const ClearBonus: real := 50.0     // score for passing over the beast
  const TrackEnd: real := 750.0      // right edge used by the move guard and the spawn position
  const SpawnY: real := -20.0        // `y` of every spawned food item
  const SpawnChance: real := 0.02    // probability that a tick spawns a food item
  const SpeedFloor: real := 2.0      // lowest speed a weight penalty can leave
  const WeightPenalty: real := 2.0   // speed lost on eating a weight food

  const InitialHunter: Hunter := Hunter(50.0, Ground, 5.0, 0.0, 0.0, false, 0.0)
  const InitialBeast: Beast := Beast(BeastReset, 3.0)

  function Abs(a: real): real {
    if a < 0.0 then -a else a
  }

  function Max(a: real, b: real): real {
    if a < b then b else a
  }

  /** The order of the kinds in the food table, which the random index selects from. */
  const Kinds: seq<Kind> := [Protein, Carb, Fat, Sugar]

  /** The food table: every row is worth a positive score and a positive stat change. */
  function FoodRow(k: Kind): (r: Row)
    ensures r.points > 0.0 && r.value > 0.0
    ensures r.effect == Speed <==> k == Carb
    ensures r.effect == Muscle <==> k == Protein
  {
    match k
    case Protein => Row(20.0, Muscle, 5.0)
    case Carb => Row(15.0, Speed, 2.0)
    case Fat => Row(10.0, Weight, 5.0)
    case Sugar => Row(5.0, Weight, 10.0)
  }

  /** A food item as the spawner makes it: its table row, at `y` = -20, inside the track. */
  predicate Spawned(f: FoodItem) {
    var row := FoodRow(f.kind);
    && f.points == row.points
    && f.effect == row.effect
    && f.value == row.value
    && f.y == SpawnY
    && 0.0 <= f.x < TrackEnd
  }
}
